=== FILE: README.md ===
# Functional finite-state-machine helper: history log with undo and redo

A Dafny model of the two implementations of the helper's history log.

- `src/StateMachine.js` (module `StateMachine`). Its handlers are registered by
  name and may chain further transitions. A transition appends a pending
  snapshot `{name, payload, state: null, index}` to the log. It then runs the
  handler and, when the result is truthy, replaces that one slot with the
  resolved snapshot. Undo and redo never delete anything. They append a copy of
  the snapshot just before or after the top snapshot's originating `index`, so
  the log only grows.
  - Every operation is first a function of the log: `Transition`, `RunHandler`,
    `Handle`, `Undo`, `Redo`, `Top`.
  - The class `Machine` changes its `log` field in place. Each of its methods is
    proved to agree with the matching function.
  - The invariant `Coherent` holds throughout. Every snapshot's `index` lies
    between 0 and its own position, and the snapshot equals the one at that
    index. This keeps undo's and redo's reads in bounds.
- `lib/StateMachine.js` (module `LegacyStateMachine`). A machine is the value
  `{isFSM, current, history, states}`, and its history array is an object shared
  by every machine derived from it.
  - `TransitionTo` appends to that array in place.
  - `CurrentState`, `Undo` and `Redo` are pure functions. They move the `current`
    cursor and hand back the same array.

Shared parts:

- `JsValues` holds the JavaScript values the handlers pass around, with
  truthiness and template-literal conversion.
- `Handlers` holds the handler shapes and the registry. A handler is
  `Return(arg)` or `Chain(target, arg)`, where `arg` is a constant or
  `` `${payload}suffix` ``. With these the chained `foo`→`bar`→`baz` registry of
  the repository's tests can be written down (`Handlers.Demo`).

Some supporting definitions have no row of their own. `JsValues.Truthy`,
`JsValues.Show` and `JsValues.Eval` give JavaScript truthiness, `String(v)` and
the handlers' template literals. `LegacyStateMachine.HistoryArray` is the
shared `history` array. `UndoTimes`, `RedoTimes` and `RedoWithinHistoryTimes`
repeat a cursor move `n` times for the lemmas that use them.

Where the repository's prose and its code disagree, the model follows the code:

- Redo right after a transition changes nothing (`RedoAfterTransition`). The
  repository's redo test (tests/StateMachineTest.test.js:28-36) expects the log to
  grow to 4 snapshots. The code at src/StateMachine.js:104-108 leaves it at 3.
- Undo followed by redo does not always put the previous top snapshot back.
  `UndoThenRedo` gives the condition under which it does, and
  `UndoThenRedoCanDiverge` gives a log where it does not. The code keeps no
  separate "highest index reached" mark. Redo compares the top snapshot's index
  with the last position only.
- There is no separate cursor in the newer implementation. "Current" is the last
  snapshot.

## Model

| member | source | states |
|---|---|---|
| `StateMachine.Transition` | src/StateMachine.js:41-64 | Unregistered name or the name `""`: throws and the log is unchanged. Otherwise it appends a snapshot with this name and payload at index = its position. Earlier snapshots are untouched, and every added snapshot sits at its own originating index. It returns the payload. It throws exactly when the chain reaches an unregistered name. The log grows by 1 + the number of nested transitions on success, and by that number on a nested failure. |
| `StateMachine.RunHandler` | src/StateMachine.js:55 | Running the handler keeps the log as prefix, only adds snapshots created by nested transitions, and fails exactly when the chain ends at an unregistered name. |
| `StateMachine.Handle` | src/StateMachine.js:140-152 | Same log effects as `transitionTo`. On success it returns the payload when that is truthy, and otherwise the last snapshot (`current()`). The `result.index < 0` test never fires. |
| `StateMachine.ResolvesOwnSnapshot` | src/StateMachine.js:54-61 | After the handler returns, only the slot captured before the call changes. It becomes the pending snapshot with `state` = the result when that is truthy, and `null` otherwise. Nested snapshots are untouched. |
| `StateMachine.GrowsByKeepsCoherent` | src/StateMachine.js:47-54 | Appending snapshots that sit at their own index keeps every snapshot's index within 0..position and keeps copies faithful. |
| `StateMachine.Top` | src/StateMachine.js:137 | `current()` is `undefined` exactly when the log is empty, and otherwise the last snapshot. |
| `StateMachine.Undo` | src/StateMachine.js:72-91 | No-op exactly on an empty log or when the top index ≤ 0. Otherwise it appends a copy of `log[top.index - 1]`. The log never shrinks and grows by at most 1. The invariant is kept. The set of snapshots is unchanged, so no new originating index appears. |
| `StateMachine.Redo` | src/StateMachine.js:99-118 | No-op exactly on an empty log or when the top index ≥ the last position. Otherwise it appends a copy of `log[top.index + 1]`. The log never shrinks and grows by at most 1. The invariant is kept. The set of snapshots is unchanged. |
| `StateMachine.RedoAfterTransition` | src/StateMachine.js:104-108 | Right after a successful or failed transition of a registered name, redo is a no-op. |
| `StateMachine.UndoThenRedo` | src/StateMachine.js:77-115 | When the snapshot just before the top's index was created by a transition, undo followed by redo appends the previous top snapshot again. |
| `StateMachine.UndoThenRedoCanDiverge` | src/StateMachine.js:83-115 | Some coherent log where undo followed by redo appends a snapshot other than the previous top. |
| `StateMachine.DemoRun` | tests/StateMachineTest.test.js:3-26 | For the foo/bar/baz registry, a transition to `foo` gives 3 snapshots with `'foo-bar-baz'` on top. A following undo gives 4 with `'foo-bar'` on top. Redo in its place changes nothing. |
| `StateMachine.Machine.constructor` | src/StateMachine.js:126-135 | A new machine has the given registry and an empty log. |
| `StateMachine.Machine.TransitionTo` | src/StateMachine.js:41-64 | Performs `transitionTo` in place. The returned value and the new log equal `Transition` of the old log, and the invariant is kept. |
| `StateMachine.Machine.HandleTransitionTo` | src/StateMachine.js:140-152 | Performs `handleTransitionTo` in place, with nested handler calls appending to the same log. The result and new log equal `Handle` of the old log. |
| `StateMachine.Machine.HandleUndo` | src/StateMachine.js:154-161 | The log becomes `Undo` of the old log, and the returned value is the new top. |
| `StateMachine.Machine.HandleRedo` | src/StateMachine.js:163-170 | The log becomes `Redo` of the old log, and the returned value is the new top. |
| `StateMachine.Machine.History` | src/StateMachine.js:138 | Returns a freshly allocated array holding exactly the log. |
| `StateMachine.Factory` | src/StateMachine.js:190-195 | A fresh machine after one `transitionTo`, with that call's result. |
| `Handlers.End` | src/StateMachine.js:42-45 | The chain from a halting name ends at an unregistered name or at a handler that does not chain. |
| `Handlers.EndPayload` | lib/StateMachine.js:61-65 | The payload that reaches the end of a chain. Where no chaining happens it is the payload given. |
| `Handlers.ChainStep` | src/StateMachine.js:55 | A chaining handler's target also halts, one nested transition fewer remains, and the chain ends at the same name. That name is reached with the same payload. |
| `LegacyStateMachine.NewStateMachine` | lib/StateMachine.js:14-31 | A new machine has `current = -1`, `isFSM`, the given states and an empty history. |
| `LegacyStateMachine.TransitionTo` | lib/StateMachine.js:42-79 | Unregistered name: throws and the history is unchanged. Otherwise it appends a record with this name and handler. A `Return` handler whose result is `undefined`/`null` throws a TypeError and leaves `state = payload`. Any other result replaces `state`, and the returned machine has `isFSM` and `current` = that record. A chaining handler's record keeps `state = payload`, and the nested machine is returned as is. When the chain ends at a registered handler, the call throws a TypeError exactly when that handler's result, computed from the payload the chain carries to it, is `undefined`/`null`. The last record is that handler's, with `state` = the result on success and = the carried payload on a TypeError. The returned `current` is always the last record. Lengths are as for the newer implementation. Every pushed record is fixed: the history becomes the old history followed by `Records` of the chain, and on success only the last record's `state` is replaced. |
| `LegacyStateMachine.Records` | lib/StateMachine.js:54-65 | The records a transition pushes: none for an unregistered name, and otherwise one per handler along the chain, starting with `name`'s own record holding the given payload. Their number is the number of nested transitions, plus one when the chain ends at a registered handler. That last record belongs to the end handler and holds the payload the chain carried to it. For a `Return` handler it is the single record `{name, handler, state: payload}`. |
| `LegacyStateMachine.ChainRecordsFollowChain` | lib/StateMachine.js:54-65 | Each pushed record names a registered handler. Each record but the last belongs to a chaining handler, and the next record is its target's, holding the chaining handler's argument evaluated on the payload that reached it. |
| `LegacyStateMachine.RecordsStep` | lib/StateMachine.js:60-68 | A chaining handler's records are its own record followed by the records of the nested transition it starts. |
| `LegacyStateMachine.PushedChain` | lib/StateMachine.js:60-68 | If the nested transition pushes its records after the chaining handler's record, the outer transition has pushed its own records. |
| `LegacyStateMachine.PushedShape` | lib/StateMachine.js:54-60 | The pushed records determine the new history length, and that the first record pushed is `name`'s, with `state = payload` for a chaining handler. |
| `LegacyStateMachine.DemoRecords` | lib/StateMachine.js:54-65 | On a foo/bar/baz registry of the tests' shape, whose chaining handlers call the exported `TransitionTo`, a transition to `foo` runs two nested transitions and ends at `baz` with `'foo-bar'`. It pushes the records `foo` (`undefined`), `bar` (`'foo'`) and `baz` (`'foo-bar'`). |
| `LegacyStateMachine.DemoTransition` | lib/StateMachine.js:42-79 | On a foo/bar/baz registry of the tests' shape, whose chaining handlers call the exported `TransitionTo`, a new machine's transition to `foo` leaves the history `foo` (`undefined`), `bar` (`'foo'`), `baz` (`'foo-bar-baz'`), and returns a machine with `isFSM` and `current` = 2. |
| `LegacyStateMachine.CurrentState` | lib/StateMachine.js:90-99 | `null` exactly when `current < 0` or the history is empty. `history[current]` when in range, and `undefined` past the end. |
| `LegacyStateMachine.Undo` | lib/StateMachine.js:110-129 | Same history and states. `current` is unchanged when ≤ 0 or the history is empty, and is decremented otherwise. A cursor in range stays in range. |
| `LegacyStateMachine.Redo` | lib/StateMachine.js:140-158 | Same history and states. `current` is incremented whenever it is ≤ `history.length`, so it stays ≤ `history.length + 1`. |
| `LegacyStateMachine.RepeatedUndoStopsAtZero` | lib/StateMachine.js:115-128 | Any number of undos keeps a non-negative cursor between 0 and its start. Each undo steps back by one until it reaches 0. |
| `LegacyStateMachine.RedoThenUndo` | lib/StateMachine.js:110-158 | On a cursor inside the history, redo then undo restores the cursor. |
| `LegacyStateMachine.UndoThenRedo` | lib/StateMachine.js:110-158 | On a cursor in 1..`history.length`, undo then redo restores the cursor. |
| `LegacyStateMachine.RedoPassesLastRecord` | lib/StateMachine.js:145-157 | From the last record, one redo makes `CurrentState` `undefined`, and repeated redos stop only at `history.length + 1`. |
| `LegacyStateMachine.RedoWithinHistory` | lib/StateMachine.js:140-158 | Corrected redo: it advances only while a record lies after the cursor, so a cursor in range stays in range and `CurrentState` keeps finding a record. |
| `LegacyStateMachine.RedoWithinHistoryStays` | lib/StateMachine.js:145-157 | Any number of corrected redos keeps the cursor on a record. |

## Findings

| source | as written | input that shows it | evidently intended | confidence | as-written member | corrected member |
|---|---|---|---|---|---|---|
| lib/StateMachine.js:145 | `Redo` advances unless `current > history.length` | a machine right after one transition (history of 1 record, `current` 0): redo gives `current` 1, and `CurrentState` then reads `history[1]`, i.e. `undefined` | advance only while a next record exists (`current < history.length - 1`), as its comment's "if it can" says | high; not executed | `LegacyStateMachine.RedoPassesLastRecord` (about `LegacyStateMachine.Redo`) | `LegacyStateMachine.RedoWithinHistory` |

## Left out

- Timestamps (`new Date()`) are clock reads. Snapshots and records carry no timestamp, so "a copy differing only in timestamp" is an equal value here.
- Handlers are found by function identity in the repository. Here a transition names its handler by registry key, which assumes that no two keys share one function. Only two handler shapes are modelled: return a value, or chain to a named handler. Handlers that throw, return numbers, booleans or objects, call undo or redo, or write to the history array directly are not modelled.
- A registry whose chain loops forever (a stack overflow in JavaScript) is excluded: transitions require `Halts`, meaning the chain ends within as many steps as there are registered names.
- LegacyStateMachine.TransitionTo: on `lib/StateMachine.js` a `Chain` handler stands for `(view, payload) => TransitionTo(view, view.states[target], arg)`, because the view it receives (lib/StateMachine.js:61-65) has no `transitionTo`. The repository's test handlers (tests/StateMachineTest.test.js:4-5) call `transitionTo` from that view, so on this machine they would push `foo`'s record and then throw a TypeError. Handlers that call a missing function are not modelled, and the lib demos use the chaining shape above.
- Payload values are `undefined`, `null` and strings only.
- `lib/StateMachine.js`'s module-level `fsm` template shares one `history: []` array among every machine built from it. `LegacyStateMachine.NewStateMachine` gives each machine its own fresh history instead, and the cross-machine aliasing is not modelled.
- The view a handler receives in `lib/StateMachine.js` carries `current`. No modelled handler reads it.
- `console.log` in `Undo`, the Babel object-spread helpers, `index.js` and the build configuration are left out. Object spreads are modelled as record copies.
- The reassignment of the closure variable `m` in `handleUndo`/`handleRedo` keeps the same history array, so it is modelled as an update of the `log` field.

=== FILE: handlers.dfy ===
/** Transition handlers and the registry that names them.

    In the repository a handler is an arbitrary function and a transition finds
    its name by searching the registry for that function. Here a handler is one
    of two shapes, enough for the chained handlers the repository's own tests
    register, and a transition is started by the handler's registry name. */
module Handlers {
  import opened JsValues

  /** `Return(arg)`: `(_, payload) => arg`.
      `Chain(target, arg)`: a handler that starts a nested transition to
      `states[target]` with `arg` and returns what that call returns. For the
      machine of `src/StateMachine.js` this is `({ states, transitionTo },
      payload) => transitionTo(states[target], arg)`, the shape of the
      repository's tests. The machine of `lib/StateMachine.js` hands its
      handlers no `transitionTo`, so there it stands for `(view, payload) =>
      TransitionTo(view, view.states[target], arg)`. */
  datatype Handler = Return(arg: Arg) | Chain(target: string, arg: Arg)

  /** The `states` object: handler by name. */
  type Registry = map<string, Handler>

  /** The reverse lookup succeeds: some key maps to the handler, and that key is
      not the empty string, which the `!name` test rejects as falsy. */
  predicate Known(states: Registry, name: string) {
    name in states && name != ""
  }

  /** Starting a transition at `name` reaches, within `fuel` chain steps, an
      unregistered name or a handler that does not chain. */
  predicate EndsWithin(states: Registry, name: string, fuel: nat)
    decreases fuel
  {
    !Known(states, name) || states[name].Return? ||
    (fuel > 0 && EndsWithin(states, states[name].target, fuel - 1))
  }

  /** Number of `Chain` handlers run, following the chain from `name` for at most `fuel` steps. */
  function Steps(states: Registry, name: string, fuel: nat): (n: nat)
    decreases fuel
  {
    if fuel == 0 || !Known(states, name) || states[name].Return? then 0
    else 1 + Steps(states, states[name].target, fuel - 1)
  }

  /** The name where the chain from `name` stops, within `fuel` steps. */
  function Stop(states: Registry, name: string, fuel: nat): (e: string)
    decreases fuel
    ensures EndsWithin(states, name, fuel) ==> !Known(states, e) || states[e].Return?
  {
    if fuel == 0 || !Known(states, name) || states[name].Return? then name
    else Stop(states, states[name].target, fuel - 1)
  }

  /** Every chain that ends at all ends within as many steps as there are
      registered names, since a longer one revisits a name and then repeats
      forever (a stack overflow in the repository). */
  predicate Halts(states: Registry, name: string) {
    EndsWithin(states, name, |states|)
  }

  /** How many nested transitions a transition started at `name` runs. */
  function Depth(states: Registry, name: string): (n: nat)
    requires Halts(states, name)
  {
    Steps(states, name, |states|)
  }

  /** The name at which the chain from `name` ends: unregistered, or a `Return` handler. */
  function End(states: Registry, name: string): (e: string)
    requires Halts(states, name)
    ensures !Known(states, e) || states[e].Return?
  {
    Stop(states, name, |states|)
  }

  /** The payload that the chain from `name`, started with `payload`, hands to
      the name where it stops, within `fuel` steps: each chaining handler
      passes on its own argument evaluated against the payload it received. */
  function Carried(states: Registry, name: string, payload: Value, fuel: nat): (p: Value)
    decreases fuel
  {
    if fuel == 0 || !Known(states, name) || states[name].Return? then payload
    else Carried(states, states[name].target, Eval(states[name].arg, payload), fuel - 1)
  }

  /** The payload with which the chain from `name` reaches `End(states, name)`. */
  function EndPayload(states: Registry, name: string, payload: Value): (p: Value)
    requires Halts(states, name)
    ensures !Known(states, name) || states[name].Return? ==> p == payload
  {
    Carried(states, name, payload, |states|)
  }

  /** Fuel beyond what a chain needs changes nothing. */
  lemma {:induction false} MoreFuel(states: Registry, name: string, f: nat, g: nat)
    requires EndsWithin(states, name, f) && f <= g
    ensures EndsWithin(states, name, g)
    ensures Steps(states, name, g) == Steps(states, name, f)
    ensures Stop(states, name, g) == Stop(states, name, f)
    ensures forall p :: Carried(states, name, p, g) == Carried(states, name, p, f)
    decreases f
  {
    if Known(states, name) && states[name].Chain? {
      MoreFuel(states, states[name].target, f - 1, g - 1);
    }
  }

  /** One step along a halting chain: the target halts too, one nested
      transition fewer remains, and the chain ends at the same name, reached
      with the same payload. */
  lemma ChainStep(states: Registry, name: string)
    requires Halts(states, name) && Known(states, name) && states[name].Chain?
    ensures Halts(states, states[name].target)
    ensures Depth(states, states[name].target) == Depth(states, name) - 1
    ensures End(states, states[name].target) == End(states, name)
    ensures forall p :: EndPayload(states, states[name].target, Eval(states[name].arg, p)) == EndPayload(states, name, p)
  {
    MoreFuel(states, states[name].target, |states| - 1, |states|);
  }

  /** The registry of the repository's tests, read with the `src` shape of
      `Chain`: `foo` chains to `bar` with `'foo'`, `bar` chains to `baz` with
      `` `${payload}-bar` ``, and `baz` returns `` `${payload}-baz` ``. */
  const Demo: Registry :=
    map["foo" := Chain("bar", Literal(Str("foo"))),
        "bar" := Chain("baz", Suffixed("-bar")),
        "baz" := Return(Suffixed("-baz"))]
}

=== FILE: js_values.dfy ===
/** The slice of JavaScript's value semantics that the state machines rely on:
    payloads and handler results, their truthiness, the string a template
    literal makes of them, and the exceptions a transition can throw. */
module JsValues {

  /** A payload or handler result. Numbers, booleans and plain objects are not
      modelled; strings, `undefined` and `null` are enough for every payload the
      handlers below build. */
  datatype Value = Undefined | Null | Str(s: string)

  /** JavaScript truthiness: `undefined`, `null` and the empty string are falsy. */
  predicate Truthy(v: Value) {
    v.Str? && v.s != ""
  }

  /** `String(v)`, which a template literal `${v}` applies to its hole. */
  function Show(v: Value): (r: string)
    ensures v.Str? ==> r == v.s
    ensures v == Undefined ==> r == "undefined"
    ensures v == Null ==> r == "null"
  {
    match v
    case Undefined => "undefined"
    case Null => "null"
    case Str(s) => s
  }

  /** How a handler builds the value it passes on or returns: a constant
      (`'foo'`) or the payload it received followed by a suffix
      (`` `${payload}-bar` ``). */
  datatype Arg = Literal(v: Value) | Suffixed(suffix: string)

  function Eval(a: Arg, payload: Value): (r: Value)
    ensures a.Literal? ==> r == a.v
    ensures a.Suffixed? ==> r.Str? && r.s == Show(payload) + a.suffix
    ensures a.Suffixed? && a.suffix != "" ==> Truthy(r)
  {
    match a
    case Literal(v) => v
    case Suffixed(suffix) => Str(Show(payload) + suffix)
  }

  /** The exceptions a transition can throw: an unregistered handler
      (`'failed to transition to an unknown state!'`), and the TypeError of
      reading `isFSM` off an `undefined` or `null` handler result. */
  datatype Error = UnknownState | TypeError

  /** A call that returns a value or throws. */
  datatype Result<T> = Ok(value: T) | Throw(error: Error)
}

=== FILE: legacy_state_machine.dfy ===
/** The older machine of `lib/StateMachine.js`.

    A machine is a plain object `{ isFSM, current, history, states }`: a
    transition appends a record to the history array in place and returns a new
    machine whose `current` cursor points at the record that holds the final
    result; undo and redo return a machine with the cursor moved and the very
    same history array. */
module LegacyStateMachine {
  import opened JsValues
  import opened Handlers

  /** A history record without its timestamp: `state` holds the payload while
      the handler runs and the handler's result afterwards. */
  datatype Entry = Entry(name: string, handler: Handler, state: Value)

  /** The history array, shared by every machine object derived from one
      machine and appended to in place by transitions. */
  class HistoryArray {
    var entries: seq<Entry>

    constructor ()
      ensures entries == []
    {
      entries := [];
    }
  }

  /** A machine object. `isFSM` is false for the objects that the no-op
      branches of `Undo` and `Redo` build, which leave that property out. */
  datatype Fsm = Fsm(isFSM: bool, current: int, history: HistoryArray, states: Registry)

  /** `NewStateMachine(states)`: cursor -1, nothing recorded yet. */
  method NewStateMachine(states: Registry) returns (m: Fsm)
    ensures fresh(m.history) && m.history.entries == []
    ensures m.isFSM && m.current == -1 && m.states == states
  {
    var history := new HistoryArray();
    m := Fsm(true, -1, history, states);
  }

  /** The records that a transition started at `name` pushes, within `fuel`
      chain steps, each holding the payload that reached its handler. */
  function ChainRecords(states: Registry, name: string, payload: Value, fuel: nat): (r: seq<Entry>)
    decreases fuel
    ensures r != [] <==> Known(states, name)
    ensures r != [] ==> r[0] == Entry(name, states[name], payload)
    ensures |r| == Steps(states, name, fuel) + if Known(states, Stop(states, name, fuel)) then 1 else 0
  {
    if !Known(states, name) then []
    else if fuel == 0 || states[name].Return? then [Entry(name, states[name], payload)]
    else [Entry(name, states[name], payload)] + ChainRecords(states, states[name].target, Eval(states[name].arg, payload), fuel - 1)
  }

  /** The records follow a chain of handlers: each names a registered handler,
      and each record but the last chains to the next record's name, which
      receives the chaining handler's argument evaluated on its own payload. */
  predicate FollowsChain(states: Registry, r: seq<Entry>) {
    (forall k :: 0 <= k < |r| ==> Known(states, r[k].name) && r[k].handler == states[r[k].name]) &&
    (forall k :: 0 <= k < |r| - 1 ==>
       r[k].handler.Chain? && r[k + 1].name == r[k].handler.target &&
       r[k + 1].state == Eval(r[k].handler.arg, r[k].state))
  }

  /** The records a transition pushes follow its chain. */
  lemma {:induction false} ChainRecordsFollowChain(states: Registry, name: string, payload: Value, fuel: nat)
    ensures FollowsChain(states, ChainRecords(states, name, payload, fuel))
    decreases fuel
  {
    if Known(states, name) && fuel > 0 && states[name].Chain? {
      var target, next := states[name].target, Eval(states[name].arg, payload);
      ChainRecordsFollowChain(states, target, next, fuel - 1);
      var rest := ChainRecords(states, target, next, fuel - 1);
      var r := ChainRecords(states, name, payload, fuel);
      assert r == [r[0]] + rest;
      forall k | 0 < k < |r|
        ensures r[k] == rest[k - 1]
      {
      }
    }
  }

  /** When the chain stops at a registered handler, the last pushed record is
      that handler's, holding the payload the chain carried to it. */
  lemma {:induction false} ChainRecordsLast(states: Registry, name: string, payload: Value, fuel: nat)
    ensures var r := ChainRecords(states, name, payload, fuel);
            var e := Stop(states, name, fuel);
            Known(states, e) ==> r != [] && r[|r| - 1] == Entry(e, states[e], Carried(states, name, payload, fuel))
    decreases fuel
  {
    if Known(states, name) && fuel > 0 && states[name].Chain? {
      ChainRecordsLast(states, states[name].target, Eval(states[name].arg, payload), fuel - 1);
    }
  }

  /** The records a halting transition started at `name` pushes: as many as it
      runs nested transitions, plus one when the chain ends at a registered
      handler, which is the last record and holds the payload the chain carries. */
  function Records(states: Registry, name: string, payload: Value): (r: seq<Entry>)
    requires Halts(states, name)
    ensures |r| == Depth(states, name) + if Known(states, End(states, name)) then 1 else 0
    ensures Known(states, End(states, name)) ==>
              r[|r| - 1] == Entry(End(states, name), states[End(states, name)], EndPayload(states, name, payload))
    ensures r != [] <==> Known(states, name)
    ensures r != [] ==> r[0] == Entry(name, states[name], payload)
    ensures FollowsChain(states, r)
    ensures Known(states, name) && states[name].Return? ==> r == [Entry(name, states[name], payload)]
  {
    ChainRecordsLast(states, name, payload, |states|);
    ChainRecordsFollowChain(states, name, payload, |states|);
    ChainRecords(states, name, payload, |states|)
  }

  /** Fuel beyond what a chain needs pushes the same records. */
  lemma {:induction false} RecordsFuel(states: Registry, name: string, payload: Value, f: nat, g: nat)
    requires EndsWithin(states, name, f) && f <= g
    ensures ChainRecords(states, name, payload, g) == ChainRecords(states, name, payload, f)
    decreases f
  {
    if Known(states, name) && states[name].Chain? {
      RecordsFuel(states, states[name].target, Eval(states[name].arg, payload), f - 1, g - 1);
    }
  }

  /** A chaining handler's record comes first, followed by the records of the
      nested transition it starts. */
  lemma RecordsStep(states: Registry, name: string, payload: Value)
    requires Halts(states, name) && Known(states, name) && states[name].Chain?
    ensures Halts(states, states[name].target)
    ensures Records(states, name, payload) ==
            [Entry(name, states[name], payload)] + Records(states, states[name].target, Eval(states[name].arg, payload))
  {
    ChainStep(states, name);
    RecordsFuel(states, states[name].target, Eval(states[name].arg, payload), |states| - 1, |states|);
  }

  /** `after` is `before` followed by `records`, except that when the
      transition succeeded the last record's `state` was replaced. */
  predicate Pushed(before: seq<Entry>, after: seq<Entry>, records: seq<Entry>, resolved: bool) {
    (!resolved ==> after == before + records) &&
    (resolved ==> records != [] && |after| == |before| + |records| &&
                  after == before + records[|records| - 1 := records[|records| - 1].(state := after[|after| - 1].state)])
  }

  /** A chaining handler pushes its own record, then the nested transition
      pushes the rest. */
  lemma PushedChain(states: Registry, name: string, payload: Value, before: seq<Entry>, after: seq<Entry>, resolved: bool)
    requires Halts(states, name) && Known(states, name) && states[name].Chain?
    requires Halts(states, states[name].target)
    requires Pushed(before + [Entry(name, states[name], payload)], after,
                    Records(states, states[name].target, Eval(states[name].arg, payload)), resolved)
    ensures Pushed(before, after, Records(states, name, payload), resolved)
  {
    var pending := Entry(name, states[name], payload);
    var rest := Records(states, states[name].target, Eval(states[name].arg, payload));
    RecordsStep(states, name, payload);
    if resolved {
      var last := rest[|rest| - 1].(state := after[|after| - 1].state);
      assert ([pending] + rest)[|rest| := last] == [pending] + rest[|rest| - 1 := last];
    }
  }

  /** What the pushed records say about the history: its new length, and the
      first record pushed, which belongs to `name` and, for a chaining handler,
      keeps the payload. */
  lemma PushedShape(states: Registry, name: string, payload: Value, before: seq<Entry>, after: seq<Entry>, resolved: bool)
    requires Halts(states, name)
    requires Pushed(before, after, Records(states, name, payload), resolved)
    requires resolved ==> Known(states, End(states, name))
    ensures |after| == |before| + Depth(states, name) + if Known(states, End(states, name)) then 1 else 0
    ensures !Known(states, name) ==> after == before
    ensures Known(states, name) ==>
              before < after && after[|before|].name == name && after[|before|].handler == states[name]
    ensures Known(states, name) && states[name].Chain? ==> after[|before|].state == payload
  {
    var records := Records(states, name, payload);
    if Known(states, name) {
      assert after[|before|] == (if resolved && |records| == 1 then after[|after| - 1] else records[0]);
      if states[name].Chain? {
        ChainStep(states, name);
      }
    }
  }

  /** `TransitionTo(m, states[name], payload)`. A chaining handler calls
      `TransitionTo` again on the view `{ current, history, states }` it
      receives, and hands back the machine that call returns. */
  method TransitionTo(m: Fsm, name: string, payload: Value) returns (r: Result<Fsm>)
    requires Halts(m.states, name)
    modifies m.history
    decreases Depth(m.states, name)
    ensures !Known(m.states, name) ==> r == Throw(UnknownState) && m.history.entries == old(m.history.entries)
    ensures Known(m.states, name) ==>
              old(m.history.entries) < m.history.entries &&
              m.history.entries[|old(m.history.entries)|].name == name &&
              m.history.entries[|old(m.history.entries)|].handler == m.states[name]
    ensures r == Throw(UnknownState) <==> !Known(m.states, End(m.states, name))
    ensures r.Ok? ==> r.value == Fsm(true, |m.history.entries| - 1, m.history, m.states)
    ensures r != Throw(UnknownState) ==>
              |m.history.entries| == |old(m.history.entries)| + 1 + Depth(m.states, name)
    ensures r == Throw(UnknownState) && Known(m.states, name) ==>
              |m.history.entries| == |old(m.history.entries)| + Depth(m.states, name)
    ensures Known(m.states, name) && m.states[name].Chain? ==>
              m.history.entries[|old(m.history.entries)|].state == payload
    ensures var end := End(m.states, name);
            Known(m.states, end) ==>
              var result := Eval(m.states[end].arg, EndPayload(m.states, name, payload));
              (r == Throw(TypeError) <==> result == Undefined || result == Null) &&
              m.history.entries[|m.history.entries| - 1] ==
                Entry(end, m.states[end], if r.Ok? then result else EndPayload(m.states, name, payload))
    ensures Pushed(old(m.history.entries), m.history.entries, Records(m.states, name, payload), r.Ok?)
    ensures Known(m.states, name) && m.states[name].Return? ==>
              var result := Eval(m.states[name].arg, payload);
              if result == Undefined || result == Null then
                r == Throw(TypeError) &&
                m.history.entries == old(m.history.entries) + [Entry(name, m.states[name], payload)]
              else
                r.Ok? &&
                m.history.entries == old(m.history.entries) + [Entry(name, m.states[name], result)]
  {
    var states, history := m.states, m.history;
    if !Known(states, name) {
      return Throw(UnknownState);
    }
    var pending := Entry(name, states[name], payload);
    history.entries := history.entries + [pending];
    var index := |history.entries| - 1;
    match states[name] {
      case Return(arg) =>
        var result := Eval(arg, payload);
        if result == Undefined || result == Null {
          // `result.isFSM` throws on undefined and null
          return Throw(TypeError);
        }
        // a string has no `isFSM`, so the record takes the result
        history.entries := history.entries[index := pending.(state := result)];
        return Ok(Fsm(true, index, history, states));
      case Chain(target, arg) =>
        ChainStep(states, name);
        // the nested call returns a machine, which has `isFSM`, and it is
        // returned as it is, leaving this record's state at the payload
        r := TransitionTo(Fsm(false, m.current, history, states), target, Eval(arg, payload));
        PushedChain(states, name, payload, old(m.history.entries), history.entries, r.Ok?);
        PushedShape(states, name, payload, old(m.history.entries), history.entries, r.Ok?);
    }
  }

  /** What `CurrentState` returns: `null`, or `history[current]`, which is
      `undefined` when the cursor is past the end. */
  datatype Lookup = NullState | UndefinedState | Found(entry: Entry)

  /** `CurrentState(m)`. */
  function CurrentState(m: Fsm): (r: Lookup)
    reads m.history
    ensures r == NullState <==> m.current < 0 || |m.history.entries| == 0
    ensures r.Found? <==> 0 <= m.current < |m.history.entries|
    ensures r.Found? ==> r.entry == m.history.entries[m.current]
  {
    if m.current < 0 || |m.history.entries| <= 0 then NullState
    else if m.current < |m.history.entries| then Found(m.history.entries[m.current])
    else UndefinedState
  }

  /** `Undo(m)`: step the cursor back by one unless it is at 0 or below or
      nothing is recorded. */
  function Undo(m: Fsm): (r: Fsm)
    reads m.history
    ensures r.history == m.history && r.states == m.states
    ensures r.current == if m.current <= 0 || |m.history.entries| == 0 then m.current else m.current - 1
    ensures r.isFSM <==> r.current != m.current
    ensures 0 <= m.current < |m.history.entries| ==> 0 <= r.current < |m.history.entries|
  {
    var current, history, states := m.current, m.history, m.states;
    if current <= 0 || |history.entries| <= 0 then Fsm(false, current, history, states)
    else Fsm(true, current - 1, history, states)
  }

  /** `Redo(m)` as written: step the cursor forward by one unless it is
      already beyond `history.length`, which lets it reach `history.length`
      and `history.length + 1`, past the last record. */
  function Redo(m: Fsm): (r: Fsm)
    reads m.history
    ensures r.history == m.history && r.states == m.states
    ensures r.current == if m.current > |m.history.entries| then m.current else m.current + 1
    ensures r.isFSM <==> r.current != m.current
    ensures m.current <= |m.history.entries| + 1 ==> r.current <= |m.history.entries| + 1
  {
    var current, history, states := m.current, m.history, m.states;
    if current > |history.entries| then Fsm(false, current, history, states)
    else Fsm(true, current + 1, history, states)
  }

  /** Redo as evidently intended ("if it can"): step forward only while a
      record lies after the cursor. */
  function RedoWithinHistory(m: Fsm): (r: Fsm)
    reads m.history
    ensures r.history == m.history && r.states == m.states
    ensures r.current == if m.current >= |m.history.entries| - 1 then m.current else m.current + 1
    ensures r.isFSM <==> r.current != m.current
    ensures 0 <= m.current < |m.history.entries| ==> 0 <= r.current < |m.history.entries|
    ensures CurrentState(m).Found? ==> CurrentState(r).Found?
  {
    var current, history, states := m.current, m.history, m.states;
    if current >= |history.entries| - 1 then Fsm(false, current, history, states)
    else Fsm(true, current + 1, history, states)
  }

  /** Undo `n` times. */
  function UndoTimes(m: Fsm, n: nat): (r: Fsm)
    reads m.history
    ensures r.history == m.history && r.states == m.states
  {
    if n == 0 then m else Undo(UndoTimes(m, n - 1))
  }

  /** Redo, as written, `n` times. */
  function RedoTimes(m: Fsm, n: nat): (r: Fsm)
    reads m.history
    ensures r.history == m.history && r.states == m.states
  {
    if n == 0 then m else Redo(RedoTimes(m, n - 1))
  }

  /** Redo, as intended, `n` times. */
  function RedoWithinHistoryTimes(m: Fsm, n: nat): (r: Fsm)
    reads m.history
    ensures r.history == m.history && r.states == m.states
  {
    if n == 0 then m else RedoWithinHistory(RedoWithinHistoryTimes(m, n - 1))
  }

  /** However often undo runs, a cursor that starts at 0 or above never goes
      below 0, and it never moves forward. */
  lemma {:induction false} RepeatedUndoStopsAtZero(m: Fsm, n: nat)
    requires 0 <= m.current
    ensures 0 <= UndoTimes(m, n).current <= m.current
    ensures n <= m.current && |m.history.entries| > 0 ==> UndoTimes(m, n).current == m.current - n
  {
    if n > 0 {
      RepeatedUndoStopsAtZero(m, n - 1);
    }
  }

  /** Redo then undo is the identity on a cursor inside a non-empty history. */
  lemma RedoThenUndo(m: Fsm)
    requires 0 <= m.current < |m.history.entries|
    ensures Undo(Redo(m)).current == m.current
  {
  }

  /** Undo then redo is the identity on a cursor at 1 or beyond. */
  lemma UndoThenRedo(m: Fsm)
    requires 0 < m.current <= |m.history.entries|
    ensures Redo(Undo(m)).current == m.current
  {
  }

  /** As written, redo from the last record leaves the history: one redo
      makes `CurrentState` read `undefined`, and redo keeps advancing until
      the cursor stands at `history.length + 1`. */
  lemma {:induction false} RedoPassesLastRecord(m: Fsm, n: nat)
    requires |m.history.entries| > 0 && m.current == |m.history.entries| - 1
    ensures CurrentState(Redo(m)) == UndefinedState
    ensures RedoTimes(m, n).current == if n <= 2 then m.current + n else |m.history.entries| + 1
  {
    if n > 0 {
      RedoPassesLastRecord(m, n - 1);
    }
  }

  /** As intended, any number of redos leaves the cursor on a record, so `CurrentState` keeps finding one. */
  lemma {:induction false} RedoWithinHistoryStays(m: Fsm, n: nat)
    requires 0 <= m.current < |m.history.entries|
    ensures 0 <= RedoWithinHistoryTimes(m, n).current < |m.history.entries|
    ensures CurrentState(RedoWithinHistoryTimes(m, n)).Found?
  {
    if n > 0 {
      RedoWithinHistoryStays(m, n - 1);
    }
  }

  /** On a foo/bar/baz registry of the tests' shape, whose chaining handlers
      call the exported `TransitionTo`, a transition to `foo` runs two
      nested transitions, ends at `baz` with the payload `'foo-bar'`, and pushes
      one record per handler, each holding the payload that reached it. */
  lemma DemoRecords()
    ensures Halts(Demo, "foo") && Depth(Demo, "foo") == 2
    ensures End(Demo, "foo") == "baz" && EndPayload(Demo, "foo", Undefined) == Str("foo-bar")
    ensures Records(Demo, "foo", Undefined) ==
            [Entry("foo", Demo["foo"], Undefined),
             Entry("bar", Demo["bar"], Str("foo")),
             Entry("baz", Demo["baz"], Str("foo-bar"))]
  {
    assert |Demo| == 3;
    assert Halts(Demo, "foo") by {
      assert EndsWithin(Demo, "baz", 1);
      assert EndsWithin(Demo, "bar", 2);
    }
    ChainStep(Demo, "foo");
    ChainStep(Demo, "bar");
    RecordsStep(Demo, "foo", Undefined);
    RecordsStep(Demo, "bar", Str("foo"));
    assert Eval(Suffixed("-bar"), Str("foo")) == Str("foo-bar");
  }

  /** A foo/bar/baz registry of the tests' shape, whose chaining handlers call
      the exported `TransitionTo`, on this machine: a transition to `foo` pushes one record per handler of the chain, `foo` and `bar` keeping
      the payloads that reached them, and `baz` holding the final result, which
      the returned machine's cursor points at. */
  method DemoTransition() returns (m: Fsm, r: Result<Fsm>)
    ensures m.history.entries ==
            [Entry("foo", Demo["foo"], Undefined),
             Entry("bar", Demo["bar"], Str("foo")),
             Entry("baz", Demo["baz"], Str("foo-bar-baz"))]
    ensures r.Ok? && r.value.isFSM && r.value.current == 2
  {
    DemoRecords();
    assert Eval(Suffixed("-baz"), Str("foo-bar")) == Str("foo-bar-baz");
    m := NewStateMachine(Demo);
    r := TransitionTo(m, "foo", Undefined);
    assert r.Ok? by {
      assert r != Throw(UnknownState) && r != Throw(TypeError);
      if r.Throw? {
        match r.error
        case UnknownState => assert false;
        case TypeError => assert false;
      }
    }
    assert |m.history.entries| == 3;
    assert m.history.entries[2] == Entry("baz", Demo["baz"], Str("foo-bar-baz"));
  }
}

=== FILE: state_machine.dfy ===
/** The history log of `src/StateMachine.js`.

    A machine keeps a log of state snapshots. A transition appends a pending
    snapshot, runs the handler (which may start nested transitions, each
    appending its own snapshot) and then fills in the snapshot's `state` with the
    handler's result. Undo and redo never remove anything: they append a copy of
    the snapshot just before or just after the top snapshot's originating index.

    The first half states each operation as a function of the log; the class
    `Machine` at the end performs the operations in place and is proved to agree
    with those functions. */
module StateMachine {
  import opened JsValues
  import opened Handlers

  /** What a handler returns and what a snapshot's `state` holds: a plain value,
      or a snapshot object (what `transitionTo` hands back from `current()` when
      its payload is falsy). */
  datatype Outcome = Plain(v: Value) | Snap(snapshot: StateSnapshot)

  /** A `StateSnapshot` without its timestamp. `index` is the position the
      snapshot had when a transition created it; copies made by undo and redo
      keep it. */
  datatype StateSnapshot = StateSnapshot(name: string, payload: Value, state: Outcome, index: int)

  type Log = seq<StateSnapshot>

  predicate TruthyOutcome(o: Outcome) {
    o.Snap? || Truthy(o.v)
  }

  /** Every originating index lies between 0 and the snapshot's own position. */
  predicate WellIndexed(log: Log) {
    forall i :: 0 <= i < |log| ==> 0 <= log[i].index <= i
  }

  /** Moreover every snapshot equals the one at its originating index: copies
      are faithful. */
  predicate Coherent(log: Log) {
    WellIndexed(log) && forall i :: 0 <= i < |log| ==> log[log[i].index] == log[i]
  }

  /** `log'` keeps `log` as its prefix, and every snapshot it adds sits at its
      own originating index (it was created by a transition). */
  predicate GrowsBy(log: Log, log': Log) {
    log <= log' && forall i :: |log| <= i < |log'| ==> log'[i].index == i
  }

  lemma GrowsByKeepsCoherent(log: Log, log': Log)
    requires Coherent(log) && GrowsBy(log, log')
    ensures Coherent(log')
  {
    forall i | 0 <= i < |log'|
      ensures 0 <= log'[i].index <= i && log'[log'[i].index] == log'[i]
    {
      if i < |log| {
        assert log'[i] == log[i];
        assert log'[log[i].index] == log[log[i].index];
      }
    }
  }

  /** `current()`: the last snapshot, or `undefined` for an empty log. */
  function Top(log: Log): (r: Outcome)
    ensures log == [] ==> r == Plain(Undefined)
    ensures log != [] ==> r == Snap(log[|log| - 1])
  {
    if log == [] then Plain(Undefined) else Snap(log[|log| - 1])
  }

  /** `transitionTo(m, states[name], payload)`: the value it returns (or the
      exception it throws) and the log afterwards. */
  function Transition(states: Registry, log: Log, name: string, payload: Value): (out: (Result<Value>, Log))
    requires Halts(states, name)
    decreases Depth(states, name), 1
    ensures GrowsBy(log, out.1)
    ensures !Known(states, name) ==> out == (Throw(UnknownState), log)
    ensures Known(states, name) ==>
              |out.1| > |log| && out.1[|log|].name == name && out.1[|log|].payload == payload
    ensures out.0.Ok? ==> out.0.value == payload
    ensures out.0.Throw? <==> !Known(states, End(states, name))
    ensures out.0.Throw? ==> out.0.error == UnknownState
    ensures |out.1| == |log| + if out.0.Ok? then 1 + Depth(states, name)
                              else if Known(states, name) then Depth(states, name) else 0
  {
    if !Known(states, name) then (Throw(UnknownState), log)
    else
      var pending := StateSnapshot(name, payload, Plain(Null), |log|);
      var (res, after) := RunHandler(states, log + [pending], name, payload);
      if res.Throw? then (Throw(res.error), after)
      else if TruthyOutcome(res.value) then (Ok(payload), after[|log| := pending.(state := res.value)])
      else (Ok(payload), after)
  }

  /** `handler(m, payload)` for the registered handler `states[name]`. */
  function RunHandler(states: Registry, log: Log, name: string, payload: Value): (out: (Result<Outcome>, Log))
    requires Known(states, name) && Halts(states, name)
    decreases Depth(states, name), 0
    ensures GrowsBy(log, out.1)
    ensures out.0.Throw? <==> !Known(states, End(states, name))
    ensures out.0.Throw? ==> out.0.error == UnknownState
    ensures |out.1| == |log| + if out.0.Ok? then Depth(states, name) else Depth(states, name) - 1
  {
    match states[name]
    case Return(arg) => (Ok(Plain(Eval(arg, payload))), log)
    case Chain(target, arg) =>
      ChainStep(states, name);
      Handle(states, log, target, Eval(arg, payload))
  }

  /** `handleTransitionTo(states[name], payload)`, the `transitionTo` that
      callers and handlers see: it returns the payload when that is truthy and
      `current()` otherwise. Its second test, `!result.index && result.index < 0`,
      never holds (an `undefined` index is not below 0), so it has no case here. */
  function Handle(states: Registry, log: Log, name: string, payload: Value): (out: (Result<Outcome>, Log))
    requires Halts(states, name)
    decreases Depth(states, name), 2
    ensures GrowsBy(log, out.1)
    ensures !Known(states, name) ==> out == (Throw(UnknownState), log)
    ensures out.0.Throw? <==> !Known(states, End(states, name))
    ensures out.0.Throw? ==> out.0.error == UnknownState
    ensures |out.1| == |log| + if out.0.Ok? then 1 + Depth(states, name)
                              else if Known(states, name) then Depth(states, name) else 0
    ensures out.0.Ok? && Truthy(payload) ==> out.0.value == Plain(payload)
    ensures out.0.Ok? && !Truthy(payload) ==> |out.1| > 0 && out.0.value == Snap(out.1[|out.1| - 1])
  {
    var (r, after) := Transition(states, log, name, payload);
    if r.Throw? then (Throw(r.error), after)
    else if !Truthy(r.value) then (Ok(Top(after)), after)
    else (Ok(Plain(r.value)), after)
  }

  /** Only the transition's own snapshot is resolved: once the handler returns,
      the snapshot it appended first gets `state` set to the handler's result
      when that is truthy and keeps `null` otherwise, and every other snapshot,
      nested ones included, is left as the handler left it. */
  lemma ResolvesOwnSnapshot(states: Registry, log: Log, name: string, payload: Value)
    requires Halts(states, name) && Known(states, name)
    ensures var pending := StateSnapshot(name, payload, Plain(Null), |log|);
            var (res, after) := RunHandler(states, log + [pending], name, payload);
            var out := Transition(states, log, name, payload);
            |out.1| == |after| > |log| &&
            (forall i :: 0 <= i < |after| && i != |log| ==> out.1[i] == after[i]) &&
            out.1[|log|] == pending.(state := if res.Ok? && TruthyOutcome(res.value) then res.value else Plain(Null))
  {
    var pending := StateSnapshot(name, payload, Plain(Null), |log|);
    var after := RunHandler(states, log + [pending], name, payload).1;
    assert (log + [pending])[|log|] == pending;
    assert after[|log|] == pending;
  }

  /** `undo(m)`: on a non-empty log whose top snapshot has a positive
      originating index, append a copy of the snapshot just before that index;
      otherwise change nothing. */
  function Undo(log: Log): (r: Log)
    requires WellIndexed(log)
    ensures log <= r && |r| <= |log| + 1
    ensures r == log <==> log == [] || log[|log| - 1].index <= 0
    ensures |r| == |log| + 1 ==> r[|log|] == log[log[|log| - 1].index - 1]
    ensures WellIndexed(r)
    ensures Coherent(log) ==> Coherent(r)
    ensures forall x :: x in r <==> x in log
  {
    if |log| <= 0 then log
    else
      var top := log[|log| - 1];
      if top.index <= 0 then log
      else log + [log[top.index - 1]]
  }

  /** `redo(m)`: on a non-empty log whose top snapshot's originating index is
      below the last position, append a copy of the snapshot just after that
      index; otherwise change nothing. */
  function Redo(log: Log): (r: Log)
    requires WellIndexed(log)
    ensures log <= r && |r| <= |log| + 1
    ensures r == log <==> log == [] || log[|log| - 1].index >= |log| - 1
    ensures |r| == |log| + 1 ==> r[|log|] == log[log[|log| - 1].index + 1]
    ensures WellIndexed(r)
    ensures Coherent(log) ==> Coherent(r)
    ensures forall x :: x in r <==> x in log
  {
    if |log| <= 0 then log
    else
      var cursor := |log| - 1;
      var top := log[cursor];
      if top.index >= cursor then log
      else log + [log[top.index + 1]]
  }

  /** Redo right after a transition changes nothing: the top snapshot was
      created by that transition, so nothing lies after its index. */
  lemma RedoAfterTransition(states: Registry, log: Log, name: string, payload: Value)
    requires Coherent(log) && Halts(states, name) && Known(states, name)
    ensures var log' := Handle(states, log, name, payload).1;
            Coherent(log') && Redo(log') == log'
  {
    var log' := Handle(states, log, name, payload).1;
    GrowsByKeepsCoherent(log, log');
    assert log'[|log'| - 1].index == |log'| - 1;
  }

  /** Undo then redo puts the snapshot that was on top back on top, provided
      the snapshot just before the top's originating index was itself created
      by a transition (as it is right after a run of transitions). */
  lemma UndoThenRedo(log: Log)
    requires Coherent(log) && log != [] && log[|log| - 1].index > 0
    requires var k := log[|log| - 1].index; log[k - 1].index == k - 1
    ensures Redo(Undo(log)) == Undo(log) + [log[|log| - 1]]
  {
    var k := log[|log| - 1].index;
    var u := Undo(log);
    assert u == log + [log[k - 1]];
    assert u[|u| - 1].index == k - 1 < |u| - 1;
    assert u[k] == log[k] == log[|log| - 1];
  }

  /** Without that proviso undo then redo can land elsewhere: after three
      transitions, an undo and a fourth transition, undo copies the undo's
      snapshot (index 1) and redo then copies position 2, not the fourth
      transition's snapshot. */
  lemma UndoThenRedoCanDiverge()
    ensures exists log: Log :: Coherent(log) && log != [] && |Redo(Undo(log))| == |log| + 2 &&
              Redo(Undo(log))[|log| + 1] != log[|log| - 1]
  {
    var a := StateSnapshot("a", Undefined, Plain(Null), 0);
    var b := StateSnapshot("b", Undefined, Plain(Null), 1);
    var c := StateSnapshot("c", Undefined, Plain(Null), 2);
    var d := StateSnapshot("d", Undefined, Plain(Null), 4);
    var log := [a, b, c, b, d];
    assert Coherent(log);
    assert Undo(log) == log + [b];
    assert Redo(log + [b]) == log + [b, c];
  }

  /** Transitioning to `foo` leaves three snapshots with `'foo-bar-baz'` on
      top; an undo then adds a fourth with `'foo-bar'` on top, while a redo in
      its place changes nothing. */
  lemma DemoRun()
    ensures Halts(Demo, "foo")
    ensures var (r, log) := Handle(Demo, [], "foo", Undefined);
            Coherent(log) && |log| == 3 && r == Ok(Top(log)) &&
            log[2].state == Plain(Str("foo-bar-baz")) &&
            var undone := Undo(log);
            |undone| == 4 && undone[3].state == Plain(Str("foo-bar")) &&
            Redo(log) == log
  {
    assert |Demo| == 3;
    assert Halts(Demo, "foo") by {
      assert EndsWithin(Demo, "baz", 1);
      assert EndsWithin(Demo, "bar", 2);
    }
    var s0 := StateSnapshot("foo", Undefined, Plain(Null), 0);
    var s1 := StateSnapshot("bar", Str("foo"), Plain(Null), 1);
    var s2 := StateSnapshot("baz", Str("foo-bar"), Plain(Null), 2);
    ChainStep(Demo, "foo");
    ChainStep(Demo, "bar");
    assert Eval(Suffixed("-bar"), Str("foo")) == Str("foo-bar");
    assert Eval(Suffixed("-baz"), Str("foo-bar")) == Str("foo-bar-baz");
    assert Demo["baz"] == Return(Suffixed("-baz")) && Known(Demo, "baz");
    assert RunHandler(Demo, [s0, s1, s2], "baz", Str("foo-bar")) == (Ok(Plain(Str("foo-bar-baz"))), [s0, s1, s2]);
    assert [s0, s1] + [s2] == [s0, s1, s2];
    assert TruthyOutcome(Plain(Str("foo-bar-baz")));
    assert [s0, s1, s2][2 := s2.(state := Plain(Str("foo-bar-baz")))] == [s0, s1, s2.(state := Plain(Str("foo-bar-baz")))];
    var baz := Transition(Demo, [s0, s1], "baz", Str("foo-bar"));
    assert baz == (Ok(Str("foo-bar")), [s0, s1, s2.(state := Plain(Str("foo-bar-baz")))]);
    var log2 := baz.1;
    assert Handle(Demo, [s0, s1], "baz", Str("foo-bar")) == (Ok(Plain(Str("foo-bar"))), log2);
    assert Demo["bar"] == Chain("baz", Suffixed("-bar")) && Known(Demo, "bar");
    assert RunHandler(Demo, [s0, s1], "bar", Str("foo")) == (Ok(Plain(Str("foo-bar"))), log2);
    assert [s0] + [s1] == [s0, s1];
    var bar := Transition(Demo, [s0], "bar", Str("foo"));
    var log1 := log2[1 := s1.(state := Plain(Str("foo-bar")))];
    assert bar == (Ok(Str("foo")), log1);
    assert Handle(Demo, [s0], "bar", Str("foo")) == (Ok(Plain(Str("foo"))), log1);
    assert Demo["foo"] == Chain("bar", Literal(Str("foo"))) && Known(Demo, "foo");
    assert RunHandler(Demo, [s0], "foo", Undefined) == (Ok(Plain(Str("foo"))), log1);
    var log0 := log1[0 := s0.(state := Plain(Str("foo")))];
    assert [] + [s0] == [s0];
    assert Transition(Demo, [], "foo", Undefined) == (Ok(Undefined), log0);
    assert Handle(Demo, [], "foo", Undefined) == (Ok(Top(log0)), log0);
    GrowsByKeepsCoherent([], log0);
  }

  /** The machine `newStateMachine(states)` returns. The closures share one
      log, kept here as a field that the methods reassign; `Valid` is the
      invariant every operation keeps. */
  class Machine {
    const states: Registry
    var log: Log

    ghost predicate Valid()
      reads this
    {
      Coherent(log)
    }

    /** `newStateMachine(states)`: an empty log. */
    constructor (states: Registry)
      ensures this.states == states && log == [] && Valid()
    {
      this.states := states;
      log := [];
    }

    /** The module-level `transitionTo`, run on this machine's log. */
    method TransitionTo(name: string, payload: Value) returns (r: Result<Value>)
      requires Valid() && Halts(states, name)
      modifies this
      decreases Depth(states, name), 1
      ensures Valid()
      ensures (r, log) == Transition(states, old(log), name, payload)
    {
      if !Known(states, name) {
        return Throw(UnknownState);
      }
      ghost var before := log;
      var pending := StateSnapshot(name, payload, Plain(Null), |log|);
      log := log + [pending];
      GrowsByKeepsCoherent(before, log);
      var index := |log| - 1;
      var result: Outcome;
      match states[name] {
        case Return(arg) =>
          result := Plain(Eval(arg, payload));
        case Chain(target, arg) =>
          ChainStep(states, name);
          var nested := HandleTransitionTo(target, Eval(arg, payload));
          if nested.Throw? {
            return Throw(nested.error);
          }
          result := nested.value;
      }
      if TruthyOutcome(result) {
        log := log[index := pending.(state := result)];
      }
      GrowsByKeepsCoherent(before, log);
      return Ok(payload);
    }

    /** The `transitionTo` closure handed to callers and to handlers. */
    method HandleTransitionTo(name: string, payload: Value) returns (r: Result<Outcome>)
      requires Valid() && Halts(states, name)
      modifies this
      decreases Depth(states, name), 2
      ensures Valid()
      ensures (r, log) == Handle(states, old(log), name, payload)
    {
      var result := TransitionTo(name, payload);
      if result.Throw? {
        return Throw(result.error);
      }
      if !Truthy(result.value) {
        return Ok(Top(log));
      }
      return Ok(Plain(result.value));
    }

    /** The `undo` closure: undo, then report the top snapshot. */
    method HandleUndo() returns (current: Outcome)
      requires Valid()
      modifies this
      ensures Valid()
      ensures log == Undo(old(log)) && current == Top(log)
    {
      log := Undo(log);
      current := Top(log);
    }

    /** The `redo` closure: redo, then report the top snapshot. */
    method HandleRedo() returns (current: Outcome)
      requires Valid()
      modifies this
      ensures Valid()
      ensures log == Redo(old(log)) && current == Top(log)
    {
      log := Redo(log);
      current := Top(log);
    }

    /** The `history` closure: a fresh array holding the log, so that writes
        through it cannot reach the machine. */
    method History() returns (copy: array<StateSnapshot>)
      ensures fresh(copy) && copy[..] == log
    {
      var snapshots := log;
      copy := new StateSnapshot[|snapshots|](i requires 0 <= i < |snapshots| => snapshots[i]);
    }
  }

  /** `factory(states, initialState, payload)`: a new machine after one
      transition, with that transition's result. */
  method Factory(states: Registry, name: string, payload: Value) returns (fsm: Machine, result: Result<Outcome>)
    requires Halts(states, name)
    ensures fresh(fsm) && fsm.states == states && fsm.Valid()
    ensures (result, fsm.log) == Handle(states, [], name, payload)
  {
    fsm := new Machine(states);
    result := fsm.HandleTransitionTo(name, payload);
  }
}
